=== FILE: README.md ===
# Turing arena session core, modelled in Dafny

This project models the session core of the Turing arena chat game backend.
Two human players and four language-model agents share one chat log. The
model covers four parts:

- the session's lifecycle: seats, name assignment, start, the chat log, the
  finish timer;
- the roster helpers that draw names and numeric ids at random;
- the registry that creates sessions on demand;
- the agent wrapper that turns the chat log into a model prompt and lets
  its reply through at most once.

Everything is immutable values and functions. Randomness is nondeterministic
choice (`:|`) inside methods, so their contracts hold for every outcome.

| file | module | models |
|---|---|---|
| `outcomes.dfy` | `Outcomes` | the thrown errors as a `Result`, and `Option` for `undefined` |
| `seqs.dfy` | `Seqs` | distinctness, `1..n`, `indexOf`, `splice`, permutation facts |
| `messages.dfy` | `Messages` | the chat message (`playerId`, `message`) |
| `roster.dfy` | `Roster` | `seedNames`, `generateRandomIds`, shuffling |
| `agent.dfy` | `Agents` | `Agent`, prompt projection, the `handler.done` guard |
| `session.dfy` | `Sessions` | the `Session` record and its operations |
| `lifecycle.dfy` | `Lifecycle` | properties over single steps and over command sequences |
| `session_storage.dfy` | `SessionStorage` | `getSession` get-or-create |

How the model represents the source:

- The session is a record. `initialized` and `started` carry the lifecycle.
  `queued` counts the turn cycles pushed onto the session's job queue.
  `finishTimers` counts armed finish timers that have not fired yet.
  `outbox` lists every message sent to a seated player.
- Thrown errors are `Err` results, and a thrown error leaves the session
  unchanged. This is the case in the source too: each check runs before any
  mutation.
- The finish timer is an explicit `Finish` event. It can fire only after a
  session loop has armed it.
- `Lifecycle.Step` and `Lifecycle.Run` apply arbitrary sequences of joins,
  starts, appends, agent replies, timer firings and topic requests. The invariant
  `Sessions.Valid` holds in every state reachable from a newly constructed
  session.

Behaviour of the code that a reader might not expect:

- There is no terminal FINISHED phase. The finish timer only clears `started`
  and leaves `initialized` set. A later start passes both guards, runs the
  session loop again and seeds the log a second time (`Lifecycle.RestartAfterFinish`).
- A join is refused only for capacity. The join path has no phase check.
- The delay an agent asks for is not used. The append timer uses a random
  delay, so `Sessions.OnAgentReply` ignores `Reply.delayMs`.
- When the session is not started, the turn-cycle worker returns without
  signalling completion (`Sessions.CyclePrompts` is `None`). The model makes
  no claim that a cycle always completes.
- The sender id of a chat event is looked up by the first position of the
  speaker's name. It is absent when the name is not in the roster
  (`Sessions.IdOf`). In the source this is JavaScript's `undefined`.

## Model

| member | source | states |
|---|---|---|
| `Roster.SeedNames` | backend/session.ts:31-53 | errors exactly when n < 0 or n > 6; otherwise returns n pairwise distinct names, all from the fixed pool; loop invariant: selected ++ available is a permutation of the pool |
| `Roster.GenerateRandomIds` | backend/session.ts:26-29 | the result is a permutation of 1..max |
| `Roster.PermutationOfRange` | backend/session.ts:26-29 | a permutation of 1..n has no repeated id, has length n, and holds exactly the ids 1..n |
| `Roster.Shuffle` | backend/session.ts:116-118 | the output is a rearrangement of the input (same multiset) |
| `Sessions.NewSession` | backend/session.ts:99-110 | a new session has this id, no players, agents or messages, both flags false, six distinct names from the pool, and ids that are a permutation of 1..6 |
| `Sessions.FreshIsValid` | backend/session.ts:99-110 | every newly constructed session satisfies the session invariant |
| `Sessions.Join` | backend/session.ts:125-135 | fails with SessionFull exactly when players.length >= 2; otherwise the new player is appended at the end and earlier seats keep their connections; the session becomes initialized exactly when it was already or this join fills the last seat; a non-final join changes only players and outbox (one pending notice to the joiner); the final join gives every seat its assigned name, sends each player its session_info notice, and changes nothing but players, agents, outbox and the initialized flag; log, flags, names, ids and queue untouched |
| `Sessions.Initialize` | backend/session.ts:141-157 | seat i gets names[i], agent j gets names[players + j] and persona j mod 2, exactly four agents are appended after the existing ones, each player gets a session_info notice with its own name, initialized becomes true, and nothing but players, agents, outbox and that flag changes |
| `Sessions.AddMessage` | backend/session.ts:207-216 | when not started the session is unchanged; when started the log becomes old ++ [m], exactly one cycle is queued, the outbox grows by one chat event per player unless silent, and no other field changes |
| `Sessions.SessionLoop` | backend/session.ts:188-197 | appends exactly one silent game-master message, sends session_started to each player, queues one cycle and arms one finish timer |
| `Sessions.StartSession` | backend/session.ts:165-176 | NotInitialized exactly when the session is not initialized; a no-op when already started; otherwise started is set, the log gains the seed message, one log cycle is queued, one finish timer is armed, every player gets a session_started notice, and nothing else changes |
| `Sessions.Finish` | backend/session.ts:194-197 | clears started, keeps initialized, log and queue, consumes one armed timer, sends session_finished to each player |
| `Sessions.IdOf` | backend/session.ts:212 | an id is found only for a name in the roster; when the names are distinct and as many as the ids, a name at position i gets exactly ids[i] |
| `Sessions.RosterEvents` | backend/session.ts:153-155 | one lifecycle notice per seated player in seat order, addressed to that player's connection, of the given stage, carrying that player's own name and the session id |
| `Sessions.NotifyTopic` | backend/session.ts:159-163 | one topic notice with the session's topic per seated player, in seat order; nothing but the outbox changes |
| `Sessions.OnAgentReply` | backend/session.ts:73-76 | when not started the session is unchanged; when started the log gains the reply under the agent's name, one cycle is queued, the old outbox is kept and each seated player in turn gets a chat event whose sender is the agent's name with the id found for it, and no other field changes |
| `Sessions.CyclePrompts` | backend/session.ts:64-79 | nothing when not started; otherwise one prompt per agent, each opening with that agent's system prompt and reading back to exactly the current log, with a message tagged assistant exactly when that agent sent it |
| `Sessions.GetUsers` | backend/session.ts:116-119 | returns a permutation of the pairs (names[i], playerIds[i]) |
| `Lifecycle.StepPreservesValid` | backend/session.ts:125-216 | every join, start, append, agent reply and timer firing keeps the session invariant: distinct names, ids a permutation of 1..6, at most two seats, initialized iff both seats are taken, the assigned roster once initialized, an empty log before initialization, started only when initialized |
| `Lifecycle.RunPreservesValid` | backend/session.ts:125-216 | the session invariant holds after any sequence of commands |
| `Lifecycle.InitializeOnLastSeat` | backend/session.ts:125-131 | on a valid session a join succeeds exactly when it is not yet initialized, and it initializes exactly when it fills the last seat |
| `Lifecycle.OnlyJoinInitializes` | backend/session.ts:125-156 | on a valid uninitialized session, a command that initializes it is a join that fills the last seat; no start, append, reply, finish or topic request initializes |
| `Lifecycle.InitializeAtMostOnce` | backend/session.ts:125-156 | once initialized, no sequence of commands changes the seats or the agents, and the session stays initialized |
| `Lifecycle.AssignedNamesDistinct` | backend/session.ts:141-151 | after initialization there are exactly four agents, the humans' and agents' names in seat order are the drawn names, and they are pairwise distinct |
| `Lifecycle.NoStartNoLog` | backend/session.ts:207-208 | while not started and with no start command, no command changes the log or the queue, and the session stays stopped |
| `Lifecycle.LogEmptyBeforeStart` | backend/session.ts:99-110 | a new session's log is empty after any sequence of commands without a start |
| `Lifecycle.FirstStartSeedsLog` | backend/session.ts:188-192 | the first start turns the empty log into exactly the one game-master message, sends only start notices and queues one cycle |
| `Lifecycle.StartIsIdempotent` | backend/session.ts:170-172 | starting a started session returns it unchanged |
| `Lifecycle.BroadcastIffNotSilent` | backend/session.ts:211-214 | an accepted message changes the outbox exactly when it is not silent, and always grows the log by one |
| `Lifecycle.FinishedDropsAppends` | backend/session.ts:194-197 | after the finish timer fires, no command sequence without a start changes the log, and the session stays initialized |
| `Lifecycle.RestartAfterFinish` | backend/session.ts:165-176 | after the finish timer a start succeeds, sets started again and appends a second seed message |
| `Lifecycle.StepAppendsAndQueues` | backend/session.ts:207-216 | one command either leaves the log alone or appends to it, and the cycles it queues equal the messages it appends |
| `Lifecycle.ConversationAppendOnly` | backend/session.ts:207-210 | the log before any command sequence is a prefix of the log after it |
| `Lifecycle.OneCyclePerMessage` | backend/session.ts:207-216 | over any command sequence, the cycles queued equal the messages appended |
| `Lifecycle.AgentReplySender` | backend/session.ts:72-76 | an agent's reply reaches every player as a chat event whose sender is that agent's drawn name and the id drawn for it |
| `Lifecycle.UserIdMatchesSender` | backend/session.ts:116-118 | every pair shown by getUsers carries the id that chat events report for its name |
| `Lifecycle.UserIdsStable` | backend/session.ts:116-118 | two getUsers results bind each name to the same id |
| `Agents.NewAgent` | backend/agent.ts:11-24 | getPlayerId returns the name given at construction, and the system prompt opening every projection is built from the persona and that name |
| `Agents.Turns` | backend/agent.ts:76-78 | one turn per log message in order, content and name copied, role assistant iff the speaker is the agent itself |
| `Agents.Project` | backend/agent.ts:76-79 | the prompt is one longer than the log and opens with the system prompt; entry i+1 is message i with role assistant iff it is the agent's own |
| `Agents.ProjectRoundTrip` | backend/agent.ts:76-79 | the log can be read back unchanged from the prompt |
| `Agents.AssistantTurnsAreOwnMessages` | backend/agent.ts:76-78 | the prompt has as many assistant turns as the log has messages by the agent |
| `Agents.Respond` | backend/agent.ts:28-37 | a done handler is unchanged; otherwise the reply is delivered once and the handler becomes done |
| `Agents.RespondUndecodable` | backend/agent.ts:28-34 | a respond call whose arguments do not decode marks the handler done and delivers nothing |
| `Agents.DoNotRespond` | backend/agent.ts:40-44 | the handler becomes done and nothing is delivered |
| `Agents.DoneIsFinal` | backend/agent.ts:28-30 | once done, no sequence of tool calls changes the handler |
| `Agents.AtMostOneReply` | backend/agent.ts:26-44 | in one conversation the callback receives exactly the first call's reply if the first tool called is respond with decodable arguments, and nothing otherwise; so at most one reply |
| `Agents.SilenceBlocksReply` | backend/agent.ts:40-43 | after keepSilent, respond never reaches the callback |
| `Agents.HandleConversation` | backend/agent.ts:26-79 | the prompt is one longer than the log and opens with the system prompt; at most one reply, one exactly when the first tool called is respond with decodable arguments, and then it is that call's reply; the prompt reads back to exactly the log, with a message tagged assistant exactly when this agent sent it |
| `SessionStorage.Find` | backend/session-storage.ts:11 | -1 exactly when no session has the id; otherwise the first position holding it |
| `SessionStorage.GetSession` | backend/session-storage.ts:10-17 | the returned session has the requested id; a hit returns the first match and leaves the list unchanged; a miss appends exactly the new session and returns it; the old list is a prefix of the new one; unique ids stay unique |
| `SessionStorage.GetSessionIdempotent` | backend/session-storage.ts:10-17 | a second lookup of the same id returns the same session and changes nothing |
| `SessionStorage.ServeKeepsRegistry` | backend/session-storage.ts:11-14 | across any sequence of lookups ids stay unique, existing entries keep their place and content, and every requested id is present |
| `SessionStorage.OneSessionPerId` | backend/session-storage.ts:11-14 | starting empty, no two sessions in the registry ever share an id |

## Left out

- The fastq job queue's asynchronous execution, its concurrency limit of one, `Promise.all`, `setTimeout` and `sleep`. These are timing and concurrency. The queue is a counter of pushed cycles, and the finish timer is an explicit event.
- `randomDelay` and the `Math.random` arithmetic, which is floating point. Every random choice is a nondeterministic choice.
- The validation timer and `SessionValidator`: on-chain calls, gas estimation, file and environment reads.
- The OpenAI `runTools` call. The tool calls the model makes are an input sequence.
- The JSON decoding and `parseInt` of the respond tool's arguments, including the 2000 ms default delay. A call is modelled either as its decoded reply or as undecodable; an undecodable call uses up the one shot and delivers nothing, because the handler is marked done before decoding.
- The prompt texts: the super prompt, the agent prompt, the trait prompts and the system prompt's wording. An agent carries only its persona index and name.
- The shuffled roster that the session_info, session_started and session_finished notices carry. The game master's opening text is a parameter standing for the rendered roster and topic.
- The WebSocket server, its command dispatch (`backend/index.ts`), the JSON envelopes (`backend/utils.ts`) and the socket type.
- `SessionStorage.getInstance` is not part of this model. The registry is an explicit value.
- `getTopic`, `getAgents`, `getPlayerIds` and `getSessionId` are plain accessors. `getConversation` is `Sessions.GetConversation`, which `Sessions.CyclePrompts` reads the log through, and the properties of the log are stated by the lifecycle lemmas.
- `SessionStorage.GetSession` returns the session's position in the list rather than an object reference, because the model has no shared mutable objects. Later changes to a session are applied to the session value, not to the stored copy.

=== FILE: agent.dfy ===
/** An autonomous chat participant: how it turns the shared chat log into the
    prompt it sends to the language model, and the one-shot guard that lets
    its reply reach the session at most once per turn. The language model
    itself is outside the model: what it does is given as the sequence of
    tool calls it makes. */
module Agents {
  import opened Messages

  /** Number of persona (trait) prompts the agents are dealt round robin. */
  const TRAIT_COUNT := 2

  /** An agent is its persona (an index into the trait prompts, whose text is
      left out) and the display name it plays under. */
  datatype Agent = Agent(persona: nat, playerId: string)

  /** The constructor: the agent plays under the given name, and its system
      prompt is built from its persona and that name. */
  function NewAgent(persona: nat, playerId: string): (a: Agent)
    ensures GetPlayerId(a) == playerId
    ensures Project(a, [])[0] == SystemPrompt(persona, playerId)
  {
    Agent(persona, playerId)
  }

  function GetPlayerId(a: Agent): string {
    a.playerId
  }

  // ---------------------------------------------------------------------------
  // Prompt projection
  // ---------------------------------------------------------------------------

  datatype Role = User | Assistant

  /** One entry of the prompt: the system prompt (built from the persona and
      the agent's own name; its wording is left out) or one chat turn. */
  datatype PromptMessage =
    | SystemPrompt(persona: nat, self: string)
    | Turn(role: Role, content: string, name: string)

  /** Own messages are the assistant's, every other speaker is a user. */
  function RoleOf(a: Agent, m: ChatMessage): Role {
    if m.playerId == a.playerId then Assistant else User
  }

  /** The chat log as prompt turns, one per message and in log order. */
  function Turns(a: Agent, log: seq<ChatMessage>): (ts: seq<PromptMessage>)
    ensures |ts| == |log|
    ensures forall i :: 0 <= i < |log| ==>
      && ts[i].Turn?
      && ts[i].content == log[i].message
      && ts[i].name == log[i].playerId
      && (ts[i].role == Assistant <==> log[i].playerId == a.playerId)
  {
    if |log| == 0 then []
    else [Turn(RoleOf(a, log[0]), log[0].message, log[0].playerId)] + Turns(a, log[1..])
  }

  /** The messages handleConversation sends to the model: the system prompt
      first, then the chat log. */
  function Project(a: Agent, log: seq<ChatMessage>): (prompts: seq<PromptMessage>)
    ensures |prompts| == |log| + 1
    ensures prompts[0] == SystemPrompt(a.persona, a.playerId)
    ensures forall i :: 0 <= i < |log| ==>
      && prompts[i + 1].Turn?
      && prompts[i + 1].content == log[i].message
      && prompts[i + 1].name == log[i].playerId
      && (prompts[i + 1].role == Assistant <==> log[i].playerId == a.playerId)
  {
    [SystemPrompt(a.persona, a.playerId)] + Turns(a, log)
  }

  /** Reading the chat log back from prompt turns. */
  function Transcript(ts: seq<PromptMessage>): seq<ChatMessage> {
    if |ts| == 0 then []
    else
      match ts[0]
      case SystemPrompt(_, _) => Transcript(ts[1..])
      case Turn(_, content, name) => [ChatMessage(name, content)] + Transcript(ts[1..])
  }

  /** The projection loses nothing: the log can be read back from the prompt. */
  lemma {:induction false} ProjectRoundTrip(a: Agent, log: seq<ChatMessage>)
    ensures Transcript(Project(a, log)) == log
  {
    TurnsRoundTrip(a, log);
  }

  lemma {:induction false} TurnsRoundTrip(a: Agent, log: seq<ChatMessage>)
    ensures Transcript(Turns(a, log)) == log
  {
    if |log| > 0 {
      var ts := Turns(a, log);
      assert ts[1..] == Turns(a, log[1..]);
      TurnsRoundTrip(a, log[1..]);
      assert log == [log[0]] + log[1..];
    }
  }

  /** Number of messages in the log spoken by name. */
  function SpokenBy(log: seq<ChatMessage>, name: string): nat {
    if |log| == 0 then 0
    else (if log[0].playerId == name then 1 else 0) + SpokenBy(log[1..], name)
  }

  /** Number of assistant turns in a prompt. */
  function AssistantTurns(ts: seq<PromptMessage>): nat {
    if |ts| == 0 then 0
    else (if ts[0].Turn? && ts[0].role == Assistant then 1 else 0) + AssistantTurns(ts[1..])
  }

  /** The prompt attributes to the agent exactly the messages it spoke itself. */
  lemma {:induction false} AssistantTurnsAreOwnMessages(a: Agent, log: seq<ChatMessage>)
    ensures AssistantTurns(Project(a, log)) == SpokenBy(log, a.playerId)
  {
    var p := Project(a, log);
    assert p[1..] == Turns(a, log);
    OwnTurns(a, log);
  }

  lemma {:induction false} OwnTurns(a: Agent, log: seq<ChatMessage>)
    ensures AssistantTurns(Turns(a, log)) == SpokenBy(log, a.playerId)
  {
    if |log| > 0 {
      var ts := Turns(a, log);
      assert ts[1..] == Turns(a, log[1..]);
      OwnTurns(a, log[1..]);
    }
  }

  // ---------------------------------------------------------------------------
  // One-shot response guard
  // ---------------------------------------------------------------------------

  /** A reply as handed to the response callback (the JSON decoding of the
      tool arguments is left out). */
  datatype Reply = Reply(message: string, delayMs: int)

  /** A tool invocation the model makes during one handleConversation: the
      respond tool with arguments that decode to a reply, the respond tool
      with arguments that do not decode (the JSON parse throws after the
      handler is already marked done), or the keepSilent tool. */
  datatype ToolCall = RespondCall(reply: Reply) | UndecodableRespondCall | KeepSilentCall

  /** The `handler.done` flag, and the replies the response callback has
      been given so far. */
  datatype Handler = Handler(done: bool, delivered: seq<Reply>)

  /** Each handleConversation starts from a fresh handler. */
  const FRESH_HANDLER := Handler(false, [])

  /** The respond tool: hands the reply to the callback unless the handler is done. */
  function Respond(h: Handler, reply: Reply): (h': Handler)
    ensures h.done ==> h' == h
    ensures !h.done ==> h'.done && h'.delivered == h.delivered + [reply]
  {
    if h.done then h else Handler(true, h.delivered + [reply])
  }

  /** The keepSilent tool: marks the handler done without a reply. */
  function DoNotRespond(h: Handler): (h': Handler)
    ensures h'.done && h'.delivered == h.delivered
  {
    h.(done := true)
  }

  /** The respond tool whose arguments fail to decode: the one shot is used
      up, but the callback is never reached. */
  function RespondUndecodable(h: Handler): (h': Handler)
    ensures h'.done && h'.delivered == h.delivered
  {
    if h.done then h else h.(done := true)
  }

  function Invoke(h: Handler, call: ToolCall): Handler {
    match call
    case RespondCall(reply) => Respond(h, reply)
    case UndecodableRespondCall => RespondUndecodable(h)
    case KeepSilentCall => DoNotRespond(h)
  }

  /** The tool calls of one conversation, applied in order. */
  function RunTools(h: Handler, calls: seq<ToolCall>): Handler
    decreases |calls|
  {
    if |calls| == 0 then h else RunTools(Invoke(h, calls[0]), calls[1..])
  }

  /** Once a tool has run, no later tool call changes anything. */
  lemma {:induction false} DoneIsFinal(h: Handler, calls: seq<ToolCall>)
    requires h.done
    ensures RunTools(h, calls) == h
  {
    if |calls| > 0 {
      DoneIsFinal(Invoke(h, calls[0]), calls[1..]);
    }
  }

  /** Within one conversation the callback fires at most once, and only when
      the first tool the model calls is the respond tool with arguments that
      decode; any other first call uses up the one shot. */
  lemma AtMostOneReply(calls: seq<ToolCall>)
    ensures RunTools(FRESH_HANDLER, calls).delivered ==
      if |calls| > 0 && calls[0].RespondCall? then [calls[0].reply] else []
    ensures |RunTools(FRESH_HANDLER, calls).delivered| <= 1
  {
    if |calls| > 0 {
      DoneIsFinal(Invoke(FRESH_HANDLER, calls[0]), calls[1..]);
    }
  }

  /** After keepSilent has run, respond never reaches the callback. */
  lemma SilenceBlocksReply(h: Handler, calls: seq<ToolCall>)
    ensures RunTools(DoNotRespond(h), calls).delivered == h.delivered
  {
    DoneIsFinal(DoNotRespond(h), calls);
  }

  /** What one handleConversation produces: the prompt sent to the model and
      the replies its tools handed to the response callback. */
  datatype Exchange = Exchange(prompt: seq<PromptMessage>, delivered: seq<Reply>)

  function HandleConversation(a: Agent, log: seq<ChatMessage>, calls: seq<ToolCall>): (x: Exchange)
    ensures |x.prompt| == |log| + 1 && x.prompt[0] == SystemPrompt(a.persona, a.playerId)
    ensures |x.delivered| <= 1
    ensures |x.delivered| == 1 <==> |calls| > 0 && calls[0].RespondCall?
    ensures |x.delivered| == 1 ==> x.delivered[0] == calls[0].reply
    ensures Transcript(x.prompt) == log
    ensures forall i :: 0 <= i < |log| ==>
      x.prompt[i + 1].Turn? && (x.prompt[i + 1].role == Assistant <==> log[i].playerId == a.playerId)
  {
    AtMostOneReply(calls);
    ProjectRoundTrip(a, log);
    Exchange(Project(a, log), RunTools(FRESH_HANDLER, calls).delivered)
  }
}

=== FILE: lifecycle.dfy ===
/** Properties of the session lifecycle over single transitions and over
    arbitrary sequences of them. */
module Lifecycle {
  import opened Outcomes
  import opened Seqs
  import opened Messages
  import Agents
  import opened Sessions

  /** Everything that can happen to a session: a join, a start command, an
      appended message (a player's chat or a silent one), an agent's delayed
      reply, the finish timer firing, and a player asking for the topic. */
  datatype Command =
    | JoinCmd(conn: Connection)
    | StartCmd(announcement: string)
    | AppendCmd(message: ChatMessage, silent: bool)
    | ReplyCmd(agent: nat, reply: Agents.Reply)
    | FinishCmd
    | TopicCmd

  /** One command. A thrown error leaves the session as it was; a finish
      timer can fire only when one is armed; only existing agents reply. */
  function Step(s: Session, c: Command): (r: Session)
    requires |s.names| == SEATS
    ensures r.names == s.names && r.playerIds == s.playerIds
  {
    match c
    case JoinCmd(conn) =>
      (match Join(s, conn) case Ok(s') => s' case Err(_) => s)
    case StartCmd(announcement) =>
      (match StartSession(s, announcement) case Ok(s') => s' case Err(_) => s)
    case AppendCmd(m, silent) => AddMessage(s, m, silent)
    case ReplyCmd(k, reply) =>
      if k < |s.agents| then OnAgentReply(s, s.agents[k], reply) else s
    case FinishCmd => if s.finishTimers > 0 then Finish(s) else s
    case TopicCmd => NotifyTopic(s)
  }

  function Run(s: Session, cmds: seq<Command>): (r: Session)
    requires |s.names| == SEATS
    ensures r.names == s.names && r.playerIds == s.playerIds
    decreases |cmds|
  {
    if |cmds| == 0 then s else Run(Step(s, cmds[0]), cmds[1..])
  }

  // ---------------------------------------------------------------------------
  // The invariant
  // ---------------------------------------------------------------------------

  /** The join that fills the last seat leaves an initialized, fully
      assigned session. */
  lemma LastSeatJoinIsValid(s: Session, conn: Connection)
    requires Valid(s) && |s.players| + 1 == MAX_PLAYERS
    ensures Join(s, conn).Ok? && Valid(Join(s, conn).value)
  {
    var seated := s.(players := s.players + [Player(conn, None)]);
    assert Join(s, conn) == Ok(Initialize(seated));
    InitializeSeatsIsValid(s, seated);
  }

  /** Initializing a full, otherwise untouched session gives a valid one. */
  lemma InitializeSeatsIsValid(s: Session, seated: Session)
    requires Valid(s) && !s.initialized
    requires seated == s.(players := seated.players)
    requires |seated.players| == MAX_PLAYERS
    ensures Valid(Initialize(seated))
  {
    var r := Initialize(seated);
    assert r.names == s.names && r.playerIds == s.playerIds;
    assert s.agents == [];
    assert |r.players| == MAX_PLAYERS && r.initialized && r.started == s.started;
    AssignedAfterInitialize(seated);
  }

  lemma AssignedAfterInitialize(seated: Session)
    requires |seated.names| == SEATS && |seated.players| == MAX_PLAYERS && seated.agents == []
    ensures |Initialize(seated).players| == MAX_PLAYERS
    ensures Assigned(Initialize(seated))
  {
  }

  lemma JoinPreservesValid(s: Session, conn: Connection)
    requires Valid(s)
    ensures Join(s, conn).Ok? ==> Valid(Join(s, conn).value)
  {
    if |s.players| + 1 == MAX_PLAYERS {
      LastSeatJoinIsValid(s, conn);
    }
  }

  lemma StartPreservesValid(s: Session, announcement: string)
    requires Valid(s)
    ensures StartSession(s, announcement).Ok? ==> Valid(StartSession(s, announcement).value)
  {
  }

  lemma AddMessagePreservesValid(s: Session, m: ChatMessage, silent: bool)
    requires Valid(s)
    ensures Valid(AddMessage(s, m, silent))
  {
  }

  lemma FinishPreservesValid(s: Session)
    requires Valid(s) && s.finishTimers > 0
    ensures Valid(Finish(s))
  {
  }

  lemma StepPreservesValid(s: Session, c: Command)
    requires Valid(s)
    ensures Valid(Step(s, c))
  {
    match c
    case JoinCmd(conn) => JoinPreservesValid(s, conn);
    case StartCmd(announcement) => StartPreservesValid(s, announcement);
    case AppendCmd(m, silent) => AddMessagePreservesValid(s, m, silent);
    case ReplyCmd(k, reply) =>
      if k < |s.agents| {
        AddMessagePreservesValid(s, ChatMessage(s.agents[k].playerId, reply.message), false);
      }
    case FinishCmd =>
      if s.finishTimers > 0 {
        FinishPreservesValid(s);
      }
    case TopicCmd =>
  }

  lemma {:induction false} RunPreservesValid(s: Session, cmds: seq<Command>)
    requires Valid(s)
    ensures Valid(Run(s, cmds))
    decreases |cmds|
  {
    if |cmds| > 0 {
      StepPreservesValid(s, cmds[0]);
      RunPreservesValid(Step(s, cmds[0]), cmds[1..]);
    }
  }

  // ---------------------------------------------------------------------------
  // Joining and initialization
  // ---------------------------------------------------------------------------

  /** The join that fills the last seat, and only that one, initializes. */
  lemma InitializeOnLastSeat(s: Session, conn: Connection)
    requires Valid(s)
    ensures Join(s, conn).Ok? <==> !s.initialized
    ensures Join(s, conn).Ok? ==>
      (Join(s, conn).value.initialized <==> |s.players| + 1 == MAX_PLAYERS)
  {
  }

  /** Only a join can initialize, and only the one that fills the last
      seat: no start, append, reply, finish or topic request does. */
  lemma OnlyJoinInitializes(s: Session, c: Command)
    requires Valid(s) && !s.initialized && Step(s, c).initialized
    ensures c.JoinCmd? && |s.players| + 1 == MAX_PLAYERS
  {
  }

  /** Once initialized, a session never initializes again: further joins fail
      and neither the seats nor the agents change, whatever happens. */
  lemma {:induction false} InitializeAtMostOnce(s: Session, cmds: seq<Command>)
    requires Valid(s) && s.initialized
    ensures Run(s, cmds).initialized
    ensures Run(s, cmds).players == s.players && Run(s, cmds).agents == s.agents
    decreases |cmds|
  {
    if |cmds| > 0 {
      var s' := Step(s, cmds[0]);
      StepPreservesValid(s, cmds[0]);
      assert s'.players == s.players && s'.agents == s.agents && s'.initialized;
      InitializeAtMostOnce(s', cmds[1..]);
    }
  }

  /** The names of the seated humans followed by the names of the agents. */
  function AssignedNames(s: Session): seq<string> {
    seq(|s.players|, i requires 0 <= i < |s.players| =>
      if s.players[i].playerId.Some? then s.players[i].playerId.value else "")
    + seq(|s.agents|, j requires 0 <= j < |s.agents| => s.agents[j].playerId)
  }

  /** After initialization every human and every agent carries its own
      name, no two alike, and there are exactly BOT_NUMBER agents. */
  lemma AssignedNamesDistinct(s: Session)
    requires Valid(s) && s.initialized
    ensures |s.agents| == BOT_NUMBER
    ensures AssignedNames(s) == s.names
    ensures Distinct(AssignedNames(s))
  {
    var a := AssignedNames(s);
    forall i | 0 <= i < SEATS ensures a[i] == s.names[i] {
      if i >= MAX_PLAYERS {
        assert s.agents[i - MAX_PLAYERS] == Agents.NewAgent((i - MAX_PLAYERS) % Agents.TRAIT_COUNT, s.names[i]);
      }
    }
  }

  // ---------------------------------------------------------------------------
  // Starting, appending and finishing
  // ---------------------------------------------------------------------------

  predicate NoStart(cmds: seq<Command>) {
    forall k :: 0 <= k < |cmds| ==> !cmds[k].StartCmd?
  }

  /** While not started and without a start command, nothing reaches the log
      and no turn cycle is queued. */
  lemma {:induction false} NoStartNoLog(s: Session, cmds: seq<Command>)
    requires |s.names| == SEATS && !s.started && NoStart(cmds)
    ensures Run(s, cmds).conversation == s.conversation
    ensures Run(s, cmds).queued == s.queued
    ensures !Run(s, cmds).started
    decreases |cmds|
  {
    if |cmds| > 0 {
      NoStartNoLog(Step(s, cmds[0]), cmds[1..]);
    }
  }

  /** A new session's log stays empty until it is started. */
  lemma LogEmptyBeforeStart(s: Session, id: string, cmds: seq<Command>)
    requires Fresh(s, id) && NoStart(cmds)
    ensures Run(s, cmds).conversation == []
  {
    NoStartNoLog(s, cmds);
  }

  /** The first start seeds the empty log with exactly one silent message
      from the game master and queues one turn cycle; the players get the
      start notice and no chat event. */
  lemma FirstStartSeedsLog(s: Session, announcement: string)
    requires Valid(s) && s.initialized && !s.started && s.conversation == []
    ensures StartSession(s, announcement).Ok?
    ensures StartSession(s, announcement).value.conversation == [ChatMessage(GAME_MASTER, announcement)]
    ensures StartSession(s, announcement).value.outbox == s.outbox + RosterEvents(s.players, StartedStage, s.id)
    ensures StartSession(s, announcement).value.queued == s.queued + 1
  {
  }

  /** A second start is a no-op: no second seed message, no second notice. */
  lemma StartIsIdempotent(s: Session, a1: string, a2: string)
    requires StartSession(s, a1).Ok?
    ensures StartSession(StartSession(s, a1).value, a2) == StartSession(s, a1)
  {
  }

  /** An accepted message reaches the players exactly when it is not silent. */
  lemma BroadcastIffNotSilent(s: Session, m: ChatMessage, silent: bool)
    requires Valid(s) && s.started
    ensures AddMessage(s, m, silent).outbox != s.outbox <==> !silent
    ensures |AddMessage(s, m, silent).conversation| == |s.conversation| + 1
  {
    if !silent {
      assert |AddMessage(s, m, silent).outbox| == |s.outbox| + MAX_PLAYERS;
    }
  }

  /** After the finish timer fires, no append reaches the log again until a
      new start, and the session stays initialized. */
  lemma {:induction false} FinishedDropsAppends(s: Session, cmds: seq<Command>)
    requires Valid(s) && s.finishTimers > 0 && NoStart(cmds)
    ensures Run(Finish(s), cmds).conversation == s.conversation
    ensures Run(Finish(s), cmds).initialized
  {
    NoStartNoLog(Finish(s), cmds);
    InitializeAtMostOnce(Finish(s), cmds);
  }

  /** There is no terminal phase: a start after the finish timer passes both
      guards, runs the session loop again and seeds the log a second time. */
  lemma RestartAfterFinish(s: Session, announcement: string)
    requires Valid(s) && s.finishTimers > 0
    ensures StartSession(Finish(s), announcement).Ok?
    ensures StartSession(Finish(s), announcement).value.started
    ensures StartSession(Finish(s), announcement).value.conversation
      == s.conversation + [ChatMessage(GAME_MASTER, announcement)]
  {
  }

  /** One command either leaves the log alone or appends one message and
      queues one cycle for it. */
  lemma StepAppendsAndQueues(s: Session, c: Command)
    requires |s.names| == SEATS
    ensures s.conversation <= Step(s, c).conversation
    ensures Step(s, c).queued - s.queued == |Step(s, c).conversation| - |s.conversation|
  {
    match c
    case JoinCmd(_) =>
    case StartCmd(_) =>
    case AppendCmd(_, _) =>
    case ReplyCmd(_, _) =>
    case FinishCmd =>
    case TopicCmd =>
  }

  /** The log only ever grows at its end. */
  lemma {:induction false} ConversationAppendOnly(s: Session, cmds: seq<Command>)
    requires |s.names| == SEATS
    ensures s.conversation <= Run(s, cmds).conversation
    decreases |cmds|
  {
    if |cmds| > 0 {
      StepAppendsAndQueues(s, cmds[0]);
      ConversationAppendOnly(Step(s, cmds[0]), cmds[1..]);
    }
  }

  /** Every message that reaches the log queues exactly one turn cycle. */
  lemma {:induction false} OneCyclePerMessage(s: Session, cmds: seq<Command>)
    requires |s.names| == SEATS
    ensures Run(s, cmds).queued - s.queued == |Run(s, cmds).conversation| - |s.conversation|
    decreases |cmds|
  {
    if |cmds| > 0 {
      StepAppendsAndQueues(s, cmds[0]);
      OneCyclePerMessage(Step(s, cmds[0]), cmds[1..]);
    }
  }

  /** An agent's reply is broadcast under the agent's own name with the
      numeric id drawn for that name. */
  lemma AgentReplySender(s: Session, k: nat, reply: Agents.Reply)
    requires Valid(s) && s.started && k < |s.agents|
    ensures OnAgentReply(s, s.agents[k], reply).outbox ==
      s.outbox + seq(|s.players|, i requires 0 <= i < |s.players| =>
        Event(s.players[i].conn,
          Chat(reply.message, Sender(s.names[MAX_PLAYERS + k], Some(s.playerIds[MAX_PLAYERS + k])))))
  {
    assert s.agents[k].playerId == s.names[MAX_PLAYERS + k];
    IndexOfDistinct(s.names, MAX_PLAYERS + k);
  }

  // ---------------------------------------------------------------------------
  // The displayed roster
  // ---------------------------------------------------------------------------

  /** Whatever order getUsers shows, each name carries the id the chat
      events report for it. */
  lemma UserIdMatchesSender(s: Session, users: seq<User>, u: User)
    requires Valid(s)
    requires multiset(users) == multiset(Pairs(s))
    requires u in users
    ensures IdOf(s.names, s.playerIds, u.name) == Some(u.id)
  {
    assert u in multiset(Pairs(s));
    var i :| 0 <= i < |Pairs(s)| && Pairs(s)[i] == u;
    IndexOfDistinct(s.names, i);
  }

  /** Two calls of getUsers bind every name to the same id. */
  lemma UserIdsStable(s: Session, users1: seq<User>, users2: seq<User>, u1: User, u2: User)
    requires Valid(s)
    requires multiset(users1) == multiset(Pairs(s)) && multiset(users2) == multiset(Pairs(s))
    requires u1 in users1 && u2 in users2 && u1.name == u2.name
    ensures u1.id == u2.id
  {
    UserIdMatchesSender(s, users1, u1);
    UserIdMatchesSender(s, users2, u2);
  }
}

=== FILE: messages.dfy ===
/** The chat message shared by the session log and the agents. */
module Messages {

  /** One chat turn: who spoke (a display name) and what was said. */
  datatype ChatMessage = ChatMessage(playerId: string, message: string)
}

=== FILE: outcomes.dfy ===
/** Result and option types for the session core, and the errors it raises. */
module Outcomes {

  /** The errors the session core throws; each one aborts its operation. */
  datatype Failure =
    | InvalidNameCount   // seedNames asked for fewer than 0 or more than the available names
    | SessionFull        // joinSession on a session whose seats are taken
    | NotInitialized     // startSession before the last seat was filled

  datatype Result<+T> = Ok(value: T) | Err(error: Failure)

  /** A value that may be absent, as `undefined` is in the source. */
  datatype Option<+T> = None | Some(value: T)
}

=== FILE: roster.dfy ===
/** The random roster helpers of the session: drawing display names, drawing
    numeric player ids, and shuffling. Every random choice of the source
    (`Math.random`, a random `sort` comparator, lodash `shuffle`) is modelled
    as a nondeterministic choice, so each contract holds for every outcome. */
module Roster {
  import opened Outcomes
  import opened Seqs

  /** The fixed pool of display names that seedNames draws from. */
  const NAMES: seq<string> := ["Bletchley", "Enigma", "Ultra", "Christopher", "Halting", "Athena"]

  lemma NamesDistinct()
    ensures Distinct(NAMES)
  {
  }

  /** Any rearrangement of xs: every element is taken out of the remaining
      ones at an arbitrary position. */
  method Shuffle<T>(xs: seq<T>) returns (ys: seq<T>)
    ensures multiset(ys) == multiset(xs)
  {
    ys := [];
    var rest := xs;
    while |rest| > 0
      invariant multiset(ys) + multiset(rest) == multiset(xs)
      decreases |rest|
    {
      var k :| 0 <= k < |rest|;
      ys := ys + [rest[k]];
      rest := RemoveAt(rest, k);
    }
  }

  /** seedNames: n names drawn without replacement from NAMES, or an error
      when n is negative or larger than the pool. */
  method SeedNames(n: int) returns (r: Result<seq<string>>)
    ensures r.Err? <==> n < 0 || n > |NAMES|
    ensures r.Err? ==> r.error == InvalidNameCount
    ensures r.Ok? ==> |r.value| == n && Distinct(r.value)
    ensures r.Ok? ==> forall x :: x in r.value ==> x in NAMES
  {
    if n < 0 || n > |NAMES| {
      return Err(InvalidNameCount);
    }
    var available := NAMES;
    var selected: seq<string> := [];
    for i := 0 to n
      invariant |selected| == i
      invariant |available| == |NAMES| - i
      invariant multiset(selected + available) == multiset(NAMES)
    {
      var k :| 0 <= k < |available|;
      selected := selected + [available[k]];
      available := RemoveAt(available, k);
    }
    NamesDistinct();
    PermutationKeepsDistinct(selected + available, NAMES);
    assert forall i :: 0 <= i < |selected| ==> (selected + available)[i] == selected[i];
    forall x | x in selected ensures x in NAMES {
      assert x in multiset(selected + available);
    }
    return Ok(selected);
  }

  /** generateRandomIds: the ids 1..max in an arbitrary order. */
  method GenerateRandomIds(max: int) returns (ids: seq<int>)
    ensures multiset(ids) == multiset(Range(max))
  {
    ids := Shuffle(Range(max));
  }

  /** A permutation of 1..n holds each of those ids exactly once and nothing else. */
  lemma PermutationOfRange(ids: seq<int>, n: int)
    requires multiset(ids) == multiset(Range(n))
    ensures Distinct(ids)
    ensures |ids| == |Range(n)|
    ensures forall v :: v in ids <==> 1 <= v <= n
  {
    assert Distinct(Range(n));
    PermutationKeepsDistinct(ids, Range(n));
    assert |ids| == |multiset(ids)|;
    forall v ensures v in ids <==> 1 <= v <= n {
      assert v in ids <==> v in multiset(Range(n));
      if 1 <= v <= n {
        assert Range(n)[v - 1] == v;
      }
    }
  }
}

=== FILE: seqs.dfy ===
/** Facts about sequences shared by the roster, the session and the registry. */
module Seqs {

  /** No element occurs twice. */
  predicate Distinct<T(==)>(s: seq<T>) {
    forall i, j :: 0 <= i < j < |s| ==> s[i] != s[j]
  }

  /** The integers 1, 2, ..., n in order; empty when n is not positive. */
  function Range(n: int): (r: seq<int>)
    ensures |r| == if n <= 0 then 0 else n
    ensures forall i :: 0 <= i < |r| ==> r[i] == i + 1
  {
    if n <= 0 then [] else seq(n, i => i + 1)
  }

  /** Position of the first occurrence of x in s, or -1 when there is none
      (the behaviour of `Array.prototype.indexOf`). */
  function IndexOf<T(==)>(s: seq<T>, x: T): (i: int)
    ensures -1 <= i < |s|
    ensures i == -1 <==> x !in s
    ensures 0 <= i ==> s[i] == x && x !in s[..i]
  {
    if |s| == 0 then -1
    else if s[0] == x then 0
    else
      var j := IndexOf(s[1..], x);
      if j == -1 then -1
      else
        assert s[..j + 1] == [s[0]] + s[1..][..j];
        j + 1
  }

  /** In a sequence without repetitions, the first occurrence of s[k] is at k. */
  lemma IndexOfDistinct<T>(s: seq<T>, k: int)
    requires Distinct(s)
    requires 0 <= k < |s|
    ensures IndexOf(s, s[k]) == k
  {
  }

  /** s without its element at position k (`splice(k, 1)`). */
  function RemoveAt<T>(s: seq<T>, k: int): (r: seq<T>)
    requires 0 <= k < |s|
    ensures |r| == |s| - 1
    ensures multiset(r) + multiset{s[k]} == multiset(s)
  {
    assert s == s[..k] + [s[k]] + s[k + 1..];
    s[..k] + s[k + 1..]
  }

  /** A value occurs at most once in a sequence without repetitions. */
  lemma {:induction false} DistinctCountAtMostOne<T>(s: seq<T>, v: T)
    requires Distinct(s)
    ensures multiset(s)[v] <= 1
  {
    if |s| > 0 {
      var t := s[1..];
      assert s == [s[0]] + t;
      assert Distinct(t) by {
        forall i, j | 0 <= i < j < |t| ensures t[i] != t[j] {
          assert t[i] == s[i + 1] && t[j] == s[j + 1];
        }
      }
      DistinctCountAtMostOne(t, v);
      if s[0] == v {
        assert v !in t by {
          forall j | 0 <= j < |t| ensures t[j] != v {
            assert t[j] == s[j + 1];
          }
        }
      }
    }
  }

  /** Two equal elements at different positions count twice. */
  lemma RepeatCountsTwice<T>(s: seq<T>, i: int, j: int)
    requires 0 <= i < j < |s| && s[i] == s[j]
    ensures multiset(s)[s[i]] >= 2
  {
    assert s == s[..j] + [s[j]] + s[j + 1..];
    assert s[i] in s[..j];
  }

  /** Rearranging a sequence without repetitions leaves none. */
  lemma PermutationKeepsDistinct<T>(a: seq<T>, b: seq<T>)
    requires multiset(a) == multiset(b)
    requires Distinct(b)
    ensures Distinct(a)
  {
    forall i, j | 0 <= i < j < |a| ensures a[i] != a[j] {
      if a[i] == a[j] {
        RepeatCountsTwice(a, i, j);
        DistinctCountAtMostOne(b, a[i]);
      }
    }
  }
}

=== FILE: session.dfy ===
/** One chat session: its seats, its agents, its chat log and its lifecycle.
    The lifecycle is carried by two flags, `initialized` (set once the last
    seat is filled) and `started` (set by startSession, cleared by the finish
    timer); there is no separate finished phase. The session's job queue is
    modelled by the number of turn cycles pushed onto it, and the messages
    sent to the seated players by an outbox of events. */
module Sessions {
  import opened Outcomes
  import opened Seqs
  import opened Messages
  import Roster
  import Agents

  /** Human seats per session. */
  const MAX_PLAYERS := 2
  /** Agents created when the last seat is filled. */
  const BOT_NUMBER := 4
  /** Names and numeric ids drawn at construction: one per human and agent. */
  const SEATS := MAX_PLAYERS + BOT_NUMBER
  const TOPIC := "What do you think about Turing arena?"
  /** Speaker of the message that opens the chat. */
  const GAME_MASTER := "Game_Master"

  /** A player's connection, opaque to the session. */
  type Connection = nat

  /** A seated human: the connection and the name assigned at initialization. */
  datatype Player = Player(conn: Connection, playerId: Option<string>)

  /** The chat event's sender: the speaker's name and the numeric id found for it. */
  datatype Sender = Sender(name: string, id: Option<int>)

  /** What the session sends to one player (the shuffled roster that the
      lifecycle notices also carry is left out). */
  datatype Notice =
    | SessionPending(sessionId: string)
    | SessionInfo(you: Option<string>, sessionId: string)
    | SessionStarted(you: Option<string>, sessionId: string)
    | SessionFinished(you: Option<string>, sessionId: string)
    | Chat(text: string, sender: Sender)
    | Topic(text: string)

  datatype Event = Event(to: Connection, notice: Notice)

  datatype Session = Session(
    id: string,
    topic: string,
    conversation: seq<ChatMessage>,
    players: seq<Player>,
    agents: seq<Agents.Agent>,
    names: seq<string>,
    playerIds: seq<int>,
    started: bool,
    initialized: bool,
    queued: nat,        // turn cycles pushed onto the session's queue
    finishTimers: nat,  // finish timers armed and not yet fired
    outbox: seq<Event>) // everything sent to the players, in order

  // ---------------------------------------------------------------------------
  // Construction
  // ---------------------------------------------------------------------------

  /** Every session the constructor can produce for this id. */
  predicate Fresh(s: Session, id: string) {
    && s.id == id
    && s.topic == TOPIC
    && s.conversation == [] && s.players == [] && s.agents == []
    && |s.names| == SEATS && Distinct(s.names)
    && (forall n :: n in s.names ==> n in Roster.NAMES)
    && |s.playerIds| == SEATS && multiset(s.playerIds) == multiset(Range(SEATS))
    && !s.started && !s.initialized
    && s.queued == 0 && s.finishTimers == 0 && s.outbox == []
  }

  /** The constructor: names and ids are drawn at random for all seats. */
  method NewSession(id: string) returns (s: Session)
    ensures Fresh(s, id)
  {
    var drawn := Roster.SeedNames(SEATS);
    var ids := Roster.GenerateRandomIds(SEATS);
    Roster.PermutationOfRange(ids, SEATS);
    match drawn
    case Err(_) =>
      assert false;
    case Ok(names) =>
      s := Session(id, TOPIC, [], [], [], names, ids, false, false, 0, 0, []);
  }

  // ---------------------------------------------------------------------------
  // The reachable states
  // ---------------------------------------------------------------------------

  /** The names handed out at initialization: seat i gets names[i], agent j
      gets names[MAX_PLAYERS + j] and the persona j mod TRAIT_COUNT. */
  predicate Assigned(s: Session)
    requires |s.names| == SEATS && |s.players| <= MAX_PLAYERS
  {
    && (forall i :: 0 <= i < |s.players| ==> s.players[i].playerId == Some(s.names[i]))
    && |s.agents| == BOT_NUMBER
    && (forall j :: 0 <= j < BOT_NUMBER ==>
          s.agents[j] == Agents.NewAgent(j % Agents.TRAIT_COUNT, s.names[MAX_PLAYERS + j]))
  }

  /** The invariant every session keeps from construction on. */
  predicate Valid(s: Session) {
    && |s.names| == SEATS && Distinct(s.names)
    && (forall n :: n in s.names ==> n in Roster.NAMES)
    && |s.playerIds| == SEATS && multiset(s.playerIds) == multiset(Range(SEATS))
    && |s.players| <= MAX_PLAYERS
    && (s.initialized <==> |s.players| == MAX_PLAYERS)
    && (s.initialized ==> Assigned(s))
    && (!s.initialized ==>
          && s.agents == [] && s.conversation == []
          && s.queued == 0 && s.finishTimers == 0
          && forall i :: 0 <= i < |s.players| ==> s.players[i].playerId.None?)
    && (s.started ==> s.initialized)
  }

  lemma FreshIsValid(s: Session, id: string)
    requires Fresh(s, id)
    ensures Valid(s) && !s.initialized && !s.started
  {
  }

  // ---------------------------------------------------------------------------
  // Notifications
  // ---------------------------------------------------------------------------

  datatype Stage = InfoStage | StartedStage | FinishedStage

  /** The lifecycle stage a notice announces, if it is a lifecycle notice. */
  function StageOf(n: Notice): Option<Stage> {
    match n
    case SessionInfo(_, _) => Some(InfoStage)
    case SessionStarted(_, _) => Some(StartedStage)
    case SessionFinished(_, _) => Some(FinishedStage)
    case _ => None
  }

  /** One lifecycle notice per seated player, in seat order, telling each
      player its own name and the session id. */
  function RosterEvents(players: seq<Player>, stage: Stage, sessionId: string): (es: seq<Event>)
    ensures |es| == |players|
    ensures forall i :: 0 <= i < |players| ==>
      && es[i].to == players[i].conn
      && StageOf(es[i].notice) == Some(stage)
      && es[i].notice.you == players[i].playerId
      && es[i].notice.sessionId == sessionId
  {
    seq(|players|, i requires 0 <= i < |players| =>
      Event(players[i].conn,
        match stage
        case InfoStage => SessionInfo(players[i].playerId, sessionId)
        case StartedStage => SessionStarted(players[i].playerId, sessionId)
        case FinishedStage => SessionFinished(players[i].playerId, sessionId)))
  }

  /** The numeric id of the player with this name: looked up by the name's
      first position; absent (`undefined`) when the name is not in the roster. */
  function IdOf(names: seq<string>, ids: seq<int>, name: string): (r: Option<int>)
    ensures r.Some? ==> name in names
    ensures |names| == |ids| && name in names ==> r.Some?
    ensures Distinct(names) && |names| == |ids| ==>
      forall i :: 0 <= i < |names| && names[i] == name ==> r == Some(ids[i])
  {
    var i := IndexOf(names, name);
    if 0 <= i < |ids| then Some(ids[i]) else None
  }

  /** The chat event for m, sent to every seated player. */
  function ChatEvents(s: Session, m: ChatMessage): seq<Event> {
    seq(|s.players|, i requires 0 <= i < |s.players| =>
      Event(s.players[i].conn, Chat(m.message, Sender(m.playerId, IdOf(s.names, s.playerIds, m.playerId)))))
  }

  // ---------------------------------------------------------------------------
  // Operations
  // ---------------------------------------------------------------------------

  /** initialize: name the seated humans and create the agents from the names
      after them, then tell every player its name. */
  function Initialize(s: Session): (r: Session)
    requires |s.players| + BOT_NUMBER <= |s.names|
    ensures r.initialized
    ensures |r.players| == |s.players|
    ensures forall i :: 0 <= i < |s.players| ==>
      r.players[i] == Player(s.players[i].conn, Some(s.names[i]))
    ensures |r.agents| == |s.agents| + BOT_NUMBER && r.agents[..|s.agents|] == s.agents
    ensures forall j :: 0 <= j < BOT_NUMBER ==>
      r.agents[|s.agents| + j] == Agents.NewAgent(j % Agents.TRAIT_COUNT, s.names[|s.players| + j])
    ensures r.outbox == s.outbox + RosterEvents(r.players, InfoStage, s.id)
    ensures r.conversation == s.conversation && r.started == s.started
    ensures r.names == s.names && r.playerIds == s.playerIds && r.id == s.id
    ensures r.queued == s.queued && r.finishTimers == s.finishTimers
    ensures r == s.(players := r.players, agents := r.agents, outbox := r.outbox, initialized := true)
  {
    var humans := seq(|s.players|, i requires 0 <= i < |s.players| =>
      s.players[i].(playerId := Some(s.names[i])));
    var bots := seq(BOT_NUMBER, j requires 0 <= j < BOT_NUMBER =>
      Agents.NewAgent(j % Agents.TRAIT_COUNT, s.names[|s.players| + j]));
    s.(players := humans,
       agents := s.agents + bots,
       outbox := s.outbox + RosterEvents(humans, InfoStage, s.id),
       initialized := true)
  }

  /** joinSession: refuse a full session; otherwise seat the player at the
      end, and either initialize (last seat) or tell the player to wait. */
  function Join(s: Session, conn: Connection): (r: Result<Session>)
    requires |s.names| == SEATS
    ensures r.Err? <==> |s.players| >= MAX_PLAYERS
    ensures r.Err? ==> r.error == SessionFull
    ensures r.Ok? ==>
      && |r.value.players| == |s.players| + 1
      && r.value.players[|s.players|].conn == conn
      && (forall i :: 0 <= i < |s.players| ==> r.value.players[i].conn == s.players[i].conn)
    ensures r.Ok? ==> (r.value.initialized <==> s.initialized || |s.players| + 1 == MAX_PLAYERS)
    ensures r.Ok? && |s.players| + 1 < MAX_PLAYERS ==>
      r.value == s.(players := s.players + [Player(conn, None)],
                    outbox := s.outbox + [Event(conn, SessionPending(s.id))])
    ensures r.Ok? && |s.players| + 1 == MAX_PLAYERS ==>
      && r.value.outbox == s.outbox + RosterEvents(r.value.players, InfoStage, s.id)
      && (forall i :: 0 <= i < |r.value.players| ==> r.value.players[i].playerId == Some(s.names[i]))
      && r.value == s.(players := r.value.players, agents := r.value.agents,
                       outbox := r.value.outbox, initialized := true)
    ensures r.Ok? ==>
      && r.value.conversation == s.conversation && r.value.started == s.started
      && r.value.names == s.names && r.value.playerIds == s.playerIds
      && r.value.queued == s.queued && r.value.finishTimers == s.finishTimers
  {
    if |s.players| >= MAX_PLAYERS then Err(SessionFull)
    else
      var seated := s.(players := s.players + [Player(conn, None)]);
      if |seated.players| == MAX_PLAYERS then Ok(Initialize(seated))
      else Ok(seated.(outbox := s.outbox + [Event(conn, SessionPending(s.id))]))
  }

  /** addMessageToConversation: dropped unless the session is started;
      otherwise appended, broadcast unless silent, and one turn cycle queued. */
  function AddMessage(s: Session, m: ChatMessage, silent: bool): (r: Session)
    ensures !s.started ==> r == s
    ensures s.started ==>
      && r.conversation == s.conversation + [m]
      && r.queued == s.queued + 1
      && r.outbox == s.outbox + (if silent then [] else ChatEvents(s, m))
      && r == s.(conversation := r.conversation, queued := r.queued, outbox := r.outbox)
  {
    if !s.started then s
    else
      s.(conversation := s.conversation + [m],
         outbox := if silent then s.outbox else s.outbox + ChatEvents(s, m),
         queued := s.queued + 1)
  }

  /** sessionLoop: announce the start, seed the log with one silent
      game-master message, and arm the finish timer. The announcement text
      (the shuffled roster and the topic, rendered as text) is a parameter. */
  function SessionLoop(s: Session, announcement: string): (r: Session)
    requires s.started
    ensures r.conversation == s.conversation + [ChatMessage(GAME_MASTER, announcement)]
    ensures r.outbox == s.outbox + RosterEvents(s.players, StartedStage, s.id)
    ensures r.queued == s.queued + 1 && r.finishTimers == s.finishTimers + 1
    ensures r.started && r.initialized == s.initialized
    ensures r.players == s.players && r.agents == s.agents
    ensures r.names == s.names && r.playerIds == s.playerIds && r.id == s.id
  {
    var announced := s.(outbox := s.outbox + RosterEvents(s.players, StartedStage, s.id));
    var seeded := AddMessage(announced, ChatMessage(GAME_MASTER, announcement), true);
    seeded.(finishTimers := seeded.finishTimers + 1)
  }

  /** startSession: an error before initialization, nothing while started,
      otherwise set started and run the session loop. */
  function StartSession(s: Session, announcement: string): (r: Result<Session>)
    ensures r.Err? <==> !s.initialized
    ensures r.Err? ==> r.error == NotInitialized
    ensures s.initialized && s.started ==> r == Ok(s)
    ensures s.initialized && !s.started ==>
      && r.Ok? && r.value.started
      && r.value.conversation == s.conversation + [ChatMessage(GAME_MASTER, announcement)]
      && r.value.queued == s.queued + 1
      && r.value.finishTimers == s.finishTimers + 1
      && r.value.outbox == s.outbox + RosterEvents(s.players, StartedStage, s.id)
      && r.value == s.(started := true, conversation := r.value.conversation, queued := r.value.queued,
                       finishTimers := r.value.finishTimers, outbox := r.value.outbox)
  {
    if !s.initialized then Err(NotInitialized)
    else if s.started then Ok(s)
    else Ok(SessionLoop(s.(started := true), announcement))
  }

  /** The finish timer firing: clear started and tell every player. The
      initialized flag stays set. */
  function Finish(s: Session): (r: Session)
    requires s.finishTimers > 0
    ensures !r.started && r.initialized == s.initialized
    ensures r.conversation == s.conversation && r.queued == s.queued
    ensures r.finishTimers == s.finishTimers - 1
    ensures r.outbox == s.outbox + RosterEvents(s.players, FinishedStage, s.id)
    ensures r.players == s.players && r.agents == s.agents
    ensures r.names == s.names && r.playerIds == s.playerIds
  {
    s.(started := false,
       finishTimers := s.finishTimers - 1,
       outbox := s.outbox + RosterEvents(s.players, FinishedStage, s.id))
  }

  /** The callback a turn cycle gives an agent: after a random delay the reply
      is appended under the agent's name. The delay the agent asked for is
      not used. */
  function OnAgentReply(s: Session, a: Agents.Agent, reply: Agents.Reply): (r: Session)
    ensures !s.started ==> r == s
    ensures s.started ==>
      && r.conversation == s.conversation + [ChatMessage(a.playerId, reply.message)]
      && r.queued == s.queued + 1
      && |r.outbox| == |s.outbox| + |s.players|
      && r.outbox[..|s.outbox|] == s.outbox
      && (forall i :: 0 <= i < |s.players| ==>
            r.outbox[|s.outbox| + i] ==
              Event(s.players[i].conn, Chat(reply.message, Sender(a.playerId, IdOf(s.names, s.playerIds, a.playerId)))))
      && r == s.(conversation := r.conversation, queued := r.queued, outbox := r.outbox)
  {
    AddMessage(s, ChatMessage(Agents.GetPlayerId(a), reply.message), false)
  }

  /** What one turn cycle asks of the agents: nothing when the session is
      not started (the worker then returns without signalling completion);
      otherwise each agent's prompt, built from the log as it is now. */
  function CyclePrompts(s: Session): (r: Option<seq<seq<Agents.PromptMessage>>>)
    ensures r.None? <==> !s.started
    ensures r.Some? ==> |r.value| == |s.agents| && forall k :: 0 <= k < |s.agents| ==>
      && Agents.Transcript(r.value[k]) == s.conversation
      && |r.value[k]| == |s.conversation| + 1
      && r.value[k][0] == Agents.SystemPrompt(s.agents[k].persona, s.agents[k].playerId)
      && forall i :: 0 <= i < |s.conversation| ==>
           && r.value[k][i + 1].Turn?
           && (r.value[k][i + 1].role == Agents.Assistant <==> s.conversation[i].playerId == s.agents[k].playerId)
  {
    if !s.started then None
    else
      var log := GetConversation(s);
      var prompts := seq(|s.agents|, k requires 0 <= k < |s.agents| => Agents.Project(s.agents[k], log));
      assert forall k :: 0 <= k < |s.agents| ==> Agents.Transcript(prompts[k]) == log by {
        forall k | 0 <= k < |s.agents| ensures Agents.Transcript(prompts[k]) == log {
          Agents.ProjectRoundTrip(s.agents[k], log);
        }
      }
      Some(prompts)
  }

  /** notifyTopic: the topic, sent to every player seated so far. */
  function NotifyTopic(s: Session): (r: Session)
    ensures |r.outbox| == |s.outbox| + |s.players| && r.outbox[..|s.outbox|] == s.outbox
    ensures forall i :: 0 <= i < |s.players| ==>
      r.outbox[|s.outbox| + i] == Event(s.players[i].conn, Topic(s.topic))
    ensures r == s.(outbox := r.outbox)
  {
    s.(outbox := s.outbox + seq(|s.players|, i requires 0 <= i < |s.players| =>
      Event(s.players[i].conn, Topic(s.topic))))
  }

  function GetConversation(s: Session): seq<ChatMessage> {
    s.conversation
  }

  // ---------------------------------------------------------------------------
  // The roster as shown to players
  // ---------------------------------------------------------------------------

  datatype User = User(name: string, id: int)

  /** Each drawn name with the id drawn at the same position. */
  function Pairs(s: Session): seq<User>
    requires |s.names| == |s.playerIds|
  {
    seq(|s.names|, i requires 0 <= i < |s.names| => User(s.names[i], s.playerIds[i]))
  }

  /** getUsers: the (name, id) pairs in an arbitrary order. */
  method GetUsers(s: Session) returns (users: seq<User>)
    requires |s.names| == |s.playerIds|
    ensures multiset(users) == multiset(Pairs(s))
  {
    users := Roster.Shuffle(Pairs(s));
  }
}

=== FILE: session_storage.dfy ===
/** The process-wide session registry: a list of sessions searched by id,
    extended on a miss. A session is identified by its position in the list;
    the position returned stands for the session object the caller receives. */
module SessionStorage {
  import opened Seqs
  import opened Sessions

  datatype Registry = Registry(sessions: seq<Session>)

  const EMPTY := Registry([])

  /** Position of the first session with this id, or -1 (`find` coming back empty). */
  function Find(sessions: seq<Session>, id: string): (i: int)
    ensures -1 <= i < |sessions|
    ensures i == -1 <==> forall k :: 0 <= k < |sessions| ==> sessions[k].id != id
    ensures 0 <= i ==> sessions[i].id == id && forall k :: 0 <= k < i ==> sessions[k].id != id
  {
    if |sessions| == 0 then -1
    else
      var j := Find(sessions[..|sessions| - 1], id);
      if j != -1 then j
      else if sessions[|sessions| - 1].id == id then |sessions| - 1
      else -1
  }

  /** The ids of the registered sessions, in list order. */
  function Ids(r: Registry): (ids: seq<string>)
    ensures |ids| == |r.sessions| && forall i :: 0 <= i < |ids| ==> ids[i] == r.sessions[i].id
  {
    seq(|r.sessions|, i requires 0 <= i < |r.sessions| => r.sessions[i].id)
  }

  /** No two sessions share an id. */
  predicate UniqueIds(r: Registry) {
    Distinct(Ids(r))
  }

  /** The registry after a lookup, and where the returned session sits. */
  datatype Lookup = Lookup(registry: Registry, slot: nat)

  /** getSession: the session with this id if there is one, otherwise
      `created` (a newly constructed session for the id), appended first. */
  function GetSession(r: Registry, id: string, created: Session): (l: Lookup)
    requires Fresh(created, id)
    ensures l.slot < |l.registry.sessions| && l.registry.sessions[l.slot].id == id
    ensures Find(r.sessions, id) != -1 ==> l == Lookup(r, Find(r.sessions, id))
    ensures Find(r.sessions, id) == -1 ==>
      l == Lookup(Registry(r.sessions + [created]), |r.sessions|)
    ensures r.sessions <= l.registry.sessions
    ensures |l.registry.sessions| <= |r.sessions| + 1
    ensures UniqueIds(r) ==> UniqueIds(l.registry)
  {
    var i := Find(r.sessions, id);
    if i != -1 then Lookup(r, i)
    else
      var grown := Registry(r.sessions + [created]);
      assert Ids(grown) == Ids(r) + [id];
      Lookup(grown, |r.sessions|)
  }

  /** Asking twice for the same id gives back the same session, and the
      second call changes nothing. */
  lemma GetSessionIdempotent(r: Registry, id: string, created1: Session, created2: Session)
    requires Fresh(created1, id) && Fresh(created2, id)
    ensures GetSession(GetSession(r, id, created1).registry, id, created2) == GetSession(r, id, created1)
  {
    var l := GetSession(r, id, created1);
    if Find(r.sessions, id) == -1 {
      assert Find(l.registry.sessions, id) == |r.sessions|;
    }
  }

  /** A lookup request: the id asked for, and the session the constructor
      would produce for it on a miss. */
  datatype Request = Request(id: string, created: Session)

  predicate WellFormedRequests(reqs: seq<Request>) {
    forall k :: 0 <= k < |reqs| ==> Fresh(reqs[k].created, reqs[k].id)
  }

  function Serve(r: Registry, reqs: seq<Request>): Registry
    requires WellFormedRequests(reqs)
    decreases |reqs|
  {
    if |reqs| == 0 then r
    else Serve(GetSession(r, reqs[0].id, reqs[0].created).registry, reqs[1..])
  }

  /** Over any sequence of lookups, ids stay unique, existing entries keep
      their place and contents, and every id asked for is present. */
  lemma {:induction false} ServeKeepsRegistry(r: Registry, reqs: seq<Request>)
    requires WellFormedRequests(reqs) && UniqueIds(r)
    ensures UniqueIds(Serve(r, reqs))
    ensures r.sessions <= Serve(r, reqs).sessions
    ensures forall k :: 0 <= k < |reqs| ==> Find(Serve(r, reqs).sessions, reqs[k].id) != -1
    decreases |reqs|
  {
    if |reqs| > 0 {
      var r' := GetSession(r, reqs[0].id, reqs[0].created).registry;
      ServeKeepsRegistry(r', reqs[1..]);
      var final := Serve(r, reqs);
      assert final == Serve(r', reqs[1..]);
      forall k | 0 <= k < |reqs| ensures Find(final.sessions, reqs[k].id) != -1 {
        if k == 0 {
          var p := Find(r'.sessions, reqs[0].id);
          assert final.sessions[p].id == reqs[0].id;
        } else {
          assert reqs[k] == reqs[1..][k - 1];
        }
      }
    }
  }

  /** Starting from the empty registry, there is exactly one session per id
      ever asked for. */
  lemma OneSessionPerId(reqs: seq<Request>, i: int, j: int)
    requires WellFormedRequests(reqs)
    requires 0 <= i < |Serve(EMPTY, reqs).sessions| && 0 <= j < |Serve(EMPTY, reqs).sessions|
    requires Serve(EMPTY, reqs).sessions[i].id == Serve(EMPTY, reqs).sessions[j].id
    ensures i == j
  {
    var final := Serve(EMPTY, reqs);
    ServeKeepsRegistry(EMPTY, reqs);
    assert Ids(final)[i] == Ids(final)[j];
  }
}
